=== FILE: README.md ===
# remix-routers: the adapters' own logic, modelled in Dafny

remix-routers puts the `@remix-run/router` data-router engine behind two UI
layers: Preact signals (`remix-router-preact-signals.tsx`) and Lit
controllers and elements (`remix-router-lit.ts`, plus a rewrite in
`router.ts`, `new-router.ts`, `outlet-impl.ts` and
`elements/route-wrapper.ts`). Most of that code is plumbing. What the adapters
decide for themselves is modelled here:

- `createPath`, which joins pathname, search and hash;
- `getPathContributingMatches`, which picks the matches a relative link
  resolves against;
- `enhanceManualRouteObjects`, which walks the route tree and defaults
  `hasErrorBoundary`;
- the form action and its `?index` rewrite;
- the outlet, which renders the next match and decides its error and its
  error boundary;
- the route context that a route wrapper publishes;
- the route error boundary's state machine, and the `<Await>` boundary's
  status and render decision;
- `navigate`, `routeError` and `submitImpl`, plus the fetcher keys
  (allocation, loading and deletion on disconnect).

Everything the engine does is an input or an emitted command. The resolver
`resolveTo` is a function parameter. So is the form-submission reader
`getFormSubmissionInfo`. The engine calls `router.navigate`, `router.fetch`
and `router.deleteFetcher` become values of the `Controller.Command`
datatype.

JavaScript semantics are written out in module `Js`:

- truthiness, `== null` and `||`;
- `Array.prototype.slice` with a negative end;
- `String(n)` for counters.

A plain object (the router's `errors` and `loaderData`) is an ordered list of
entries. The list order is the order `Object.values` reports.

Modules, in dependency order:

- `Js`: values, truthiness, slicing, object lookup and decimal strings.
- `Paths`: `createPath` and its inverse on normal paths, and the `?index`
  rewrite with its inverse.
- `RouteObjects`: the route tree and `enhanceManualRouteObjects`.
- `Matches`: matches, `findIndex` (written out with its -1 for a missing
  id), `getPathContributingMatches` and the `matches` projection.
- `RouteContexts`: the context each route wrapper copy publishes, and the
  invariant that throws where there is none.
- `Outlet`: the four outlet copies.
- `ErrorBoundary`: the Preact route error boundary.
- `Await`: the Preact `<Await>` error boundary.
- `Controller`: navigation, form action, route error, submission and
  fetcher keys.

## Model

| member | source | states |
|---|---|---|
| Js.SliceTo | packages/lit/src/remix-router-lit.ts:641-644 | `slice(0, end)` with ECMAScript clamping: a negative end counts from the back; past either end it clamps to the whole list or to empty |
| Js.Get | packages/lit/src/router.ts:149 | `obj[key]` on a plain object: the value of the first entry stored under the key, and undefined exactly when no entry has the key or its value is undefined |
| Js.GetEntry | packages/lit/src/router.ts:118 | in an object (no key stored twice), looking up any stored key gives the value stored under it |
| Js.ParseDecimalString | packages/lit/src/router.ts:257 | the decimal string `String(n)` parses back to `n`, so distinct counter values give distinct keys |
| Js.DecimalString | packages/lit/src/router.ts:257 | `String(n)` for a counter: a non-empty digit string without a leading zero |
| Paths.CreatePath | packages/preact-signals/src/remix-router-preact-signals.tsx:1066-1072 | the pathname, defaulting to "/", is a prefix of the result; an empty or bare "?" search and an empty or bare "#" hash add nothing, so the result is then the pathname alone |
| Paths.SplitCreatePath | packages/lit/src/remix-router-lit.ts:949-955 | splitting the joined path at its first '?' and '#' gives back the pathname, and the search and hash each with exactly one leading marker (empty when absent or bare) |
| Paths.CreatePathNormal | packages/preact-signals/src/remix-router-preact-signals.tsx:1067-1071 | joining is idempotent on normal paths: re-joining the split of a joined path gives the same string |
| Paths.IndexSearch | packages/preact-signals/src/remix-router-preact-signals.tsx:402-404 | an empty search becomes "?index"; a search starting with '?' becomes "?index&" followed by the rest |
| Paths.StripIndexSearch | packages/lit/src/router.ts:203-205 | the rewrite loses nothing: removing the inserted `index` parameter gives back the original search, for every search |
| Paths.FormActionHref | packages/lit/src/remix-router-lit.ts:429-434 | pathname + search, unchanged unless the action is "." in an index route; then pathname + the `?index`-rewritten search, which strips back to the resolved search and starts with "?index" when the search is empty or starts with '?' |
| Matches.FindIndex | packages/preact-signals/src/remix-router-preact-signals.tsx:719 | the first position whose route id equals the looked-up id, or -1 exactly when there is none; an absent id (the root) is never found |
| Matches.FindIndexDistinct | packages/lit/src/outlet-impl.ts:26 | with distinct route ids, looking up a match's own id finds that match |
| Matches.ContributingPrefix | packages/lit/src/remix-router-lit.ts:941-946 | filtering a non-empty prefix keeps its first match and yields at most as many matches as the input |
| Matches.GetPathContributingMatches | packages/preact-signals/src/remix-router-preact-signals.tsx:1056-1064 | no longer than the input, and the first match of a non-empty input is always kept |
| Matches.ContributingSelection | packages/preact-signals/src/remix-router-preact-signals.tsx:1058-1063 | the filter output is the input read at strictly increasing positions. Position i is kept exactly when i = 0, or its route is not an index route and its base differs from the input's match at i-1 |
| Matches.PathContributingSelection | packages/lit/src/remix-router-lit.ts:939-947 | the same order-preserving, exact selection for the whole match list |
| Matches.ProjectMatches | packages/lit/src/router.ts:111-121 | the `matches` getter keeps length and order; each element's `id` is its route's id, `data` is `loaderData[route.id]` and `handle` is the route's handle |
| Matches.UseMatches | packages/preact-signals/src/remix-router-preact-signals.tsx:232-243 | Preact's `useMatches` keeps length and order; each element has its route's id, the match's pathname and params, `loaderData[route.id]` and the route's handle |
| Matches.UseMatchesAgreesWithProjection | packages/preact-signals/src/remix-router-preact-signals.tsx:234-242 | the Preact hook and the Lit `matches` getters agree on every field they share |
| Matches.ProjectMatchesRoundTrip | packages/lit/src/new-router.ts:184-194 | the projection only adds fields: dropping them gives back each router match |
| RouteObjects.ErrorBoundaryFlag | packages/preact-signals/src/remix-router-preact-signals.tsx:986-988 | an explicit (non-nullish) `hasErrorBoundary` stays; a missing one becomes whether the error view is non-nullish; the result is never nullish |
| RouteObjects.EnhanceManualRouteObjects | packages/preact-signals/src/remix-router-preact-signals.tsx:983-994 | the output has the input's length and enhances each route in place |
| RouteObjects.EnhanceRoute | packages/lit/src/remix-router-lit.ts:895-904 | the clone keeps the error view and every other property, takes the defaulted flag, and has children exactly when the input has them, each child list being the walk applied to the input's children |
| RouteObjects.EnhanceFlagsAll | packages/lit/src/new-router.ts:369-373 | every route of the output tree, at any depth, has a non-nullish `hasErrorBoundary` |
| RouteObjects.EnhanceFlagsRoute | packages/preact-signals/src/remix-router-preact-signals.tsx:986-991 | a route and all its descendants come out with a non-nullish flag |
| RouteObjects.EnhanceRelates | packages/preact-signals/src/remix-router-preact-signals.tsx:983-994 | at every depth each output route carries the flag its own input route defaults to, keeps that route's other properties, and has its children in order |
| RouteObjects.EnhanceRouteRelates | packages/lit/src/new-router.ts:367-376 | the same node-by-node relation for one route and its subtree |
| RouteObjects.EnhancedFromUnique | packages/lit/src/remix-router-lit.ts:894-905 | the node-by-node relation leaves no freedom: any tree related to the input is the walk's output |
| RouteObjects.RouteEnhancedFromUnique | packages/lit/src/remix-router-lit.ts:895-904 | the same for one route and its subtree |
| RouteObjects.EnhanceCharacterised | packages/lit/src/new-router.ts:366-377 | a list is the walk's output exactly when it is related node by node to the input |
| RouteObjects.EnhancePreservesShape | packages/lit/src/remix-router-lit.ts:894-905 | with the flags erased, the output tree equals the input tree: the same shape, and every field other than the flag untouched |
| RouteObjects.EnhancePreservesRouteShape | packages/preact-signals/src/remix-router-preact-signals.tsx:985-990 | the same for one route and its subtree |
| RouteObjects.EnhanceFixpoint | packages/preact-signals/src/remix-router-preact-signals.tsx:983-994 | the walk returns its input unchanged exactly when every route in the tree already has a non-nullish flag |
| RouteObjects.EnhanceFlaggedUnchanged | packages/lit/src/remix-router-lit.ts:897-899 | a tree whose routes all carry explicit flags passes through unchanged |
| RouteObjects.EnhanceFlaggedRouteUnchanged | packages/lit/src/new-router.ts:368-375 | the same for one route and its subtree |
| RouteObjects.EnhanceIdempotent | packages/lit/src/new-router.ts:366-377 | enhancing twice is enhancing once |
| RouteContexts.MatchesThrough | packages/lit/src/elements/route-wrapper.ts:23-28 | a prefix of the matches that is non-empty exactly when some match has the id; it ends at the first match with the id, and no earlier match has it |
| RouteContexts.WrapperContext | packages/preact-signals/src/remix-router-preact-signals.tsx:566-573 | the context carries the wrapper's id, the matches through its own route (empty if unmatched), and `index` only for the value `true` itself |
| RouteContexts.NewRouterWrapperContext | packages/lit/src/new-router.ts:238-250 | a context is published exactly when the router context has a state, with the same id, matches and index as the other copies |
| RouteContexts.LitWrapperContext | packages/lit/src/remix-router-lit.ts:639-646 | as written: a matched route's context holds the matches strictly before its own; an unmatched id keeps all but the last match |
| RouteContexts.LitWrapperOmitsOwnMatch | packages/lit/src/remix-router-lit.ts:641-644 | for a matched route the remix-router-lit.ts context is the other copies' context minus exactly one match, the route's own |
| RouteContexts.LitWrapperCounterexample | packages/lit/src/remix-router-lit.ts:639-646 | on a root and child match, the child's context lacks the child's match, and an unmatched wrapper sees the root match where the other copies give nothing |
| Outlet.SelectError | packages/lit/src/outlet-impl.ts:46-49 | a route with a non-nullish recorded error receives the first recorded error, otherwise null |
| Outlet.SelectOwnError | packages/preact-signals/src/remix-router-preact-signals.tsx:738-741 | with a single recorded error, its route receives exactly that error |
| Outlet.SelectNoError | packages/lit/src/remix-router-lit.ts:726-729 | a route with no recorded error receives null, whatever other routes have |
| Outlet.RenderRoute | packages/preact-signals/src/remix-router-preact-signals.tsx:996-1022 | the wrapper has the match's id, index flag `route.index === true` and view; a boundary is present exactly when at the root, or the error or the error view is truthy (never in new-router.ts); the boundary shows the route's error view or the adapter's default |
| Outlet.OutletImpl | packages/preact-signals/src/remix-router-preact-signals.tsx:714-745 | throws exactly when the outlet is outside every route wrapper, or nested under an unmatched route. Outside every wrapper, the Preact adapter and remix-router-lit.ts throw the "No RouteContext available" invariant, while outlet-impl.ts and new-router.ts throw their not-found message for `_root_`. Under an unmatched route every copy throws its not-found message with the route's id. The root renders the first match, or nothing for no matches. A nested outlet renders nothing exactly when its route's first match is the last match; otherwise it renders the match right after that first match, with that match's selected error |
| Outlet.OutletRendersNextMatch | packages/lit/src/new-router.ts:329-347 | with distinct route ids, the outlet inside match k renders match k+1, and nothing below the last match |
| ErrorBoundary.InitialState | packages/preact-signals/src/remix-router-preact-signals.tsx:647-653 | the boundary starts with the error and location it is given; deriving from the same props then changes nothing, and the error view shows exactly when that error is truthy |
| ErrorBoundary.DerivedStateFromError | packages/preact-signals/src/remix-router-preact-signals.tsx:655-657 | a caught render error replaces the error and keeps the location |
| ErrorBoundary.DerivedStateFromProps | packages/preact-signals/src/remix-router-preact-signals.tsx:659-686 | the location always follows the props. At a new location the error is the props' error; at the same location a truthy props error wins, otherwise the previous error is kept |
| ErrorBoundary.Render | packages/preact-signals/src/remix-router-preact-signals.tsx:696-705 | the error view is shown exactly when the state's error is truthy, with that error |
| ErrorBoundary.NewLocationRecovers | packages/preact-signals/src/remix-router-preact-signals.tsx:671-676 | a new location without a router error renders the children again |
| ErrorBoundary.SameLocationRetainsError | packages/preact-signals/src/remix-router-preact-signals.tsx:682-685 | at the same location a shown error stays shown, and the state is unchanged when the router error has been cleared |
| ErrorBoundary.DerivedStateIdempotent | packages/preact-signals/src/remix-router-preact-signals.tsx:659-686 | deriving twice from the same props equals deriving once |
| ErrorBoundary.CaughtErrorShownUntilNavigation | packages/preact-signals/src/remix-router-preact-signals.tsx:655-686 | a caught render error keeps showing through later renders at the same location |
| Await.Classify | packages/preact-signals/src/remix-router-preact-signals.tsx:903-935 | a non-promise is a success even after a caught error. Otherwise a caught error means error. A tracked promise is an error when `_error` is defined, else a success when `_data` is defined, else pending. An untracked promise is pending |
| Await.Render | packages/preact-signals/src/remix-router-preact-signals.tsx:937-961 | an aborted-deferred error suspends forever. Another error is rethrown without an error element and rendered through it otherwise. A success renders the children with the data, and pending suspends |
| Await.Track | packages/preact-signals/src/remix-router-preact-signals.tsx:925-935 | only an untracked promise, when no error was caught, becomes tracked; nothing else changes |
| Await.PlainValueRenders | packages/preact-signals/src/remix-router-preact-signals.tsx:903-908 | a non-promise value renders the children with that value whatever error was caught |
| Await.TrackedStillPending | packages/preact-signals/src/remix-router-preact-signals.tsx:925-935 | an unsettled promise suspends before and after it is tracked |
| Await.SettledPromiseRenders | packages/preact-signals/src/remix-router-preact-signals.tsx:916-924 | a settled tracked promise renders its error through the error element, or its data through the children |
| Controller.RelativeBases | packages/lit/src/router.ts:196-200 | at most one base per match, and the root match's base always comes first |
| Controller.RelativeBasesContribute | packages/lit/src/remix-router-lit.ts:423-427 | every base belongs to a path-contributing match, in match order |
| Controller.Navigate | packages/lit/src/remix-router-lit.ts:395-417 | throws the "No RouteContext available" invariant exactly when the host is outside every route. Otherwise a number is forwarded unchanged as a history delta; a destination is resolved against the contributing bases and the current pathname and sent with the options' `replace` and `state` |
| Controller.NavigateDeltaResolvesNothing | packages/lit/src/router.ts:172-178 | the route context is read even for a delta, so without one a delta navigation throws; with one it does not depend on the context's contents, the location, the options or the resolver |
| Controller.NavigateDependsOnBases | packages/preact-signals/src/remix-router-preact-signals.tsx:340-353 | two route contexts with the same contributing bases navigate to the same path |
| Controller.FormAction | packages/lit/src/router.ts:192-208 | throws the "No RouteContext available" invariant exactly when the host is outside every route. Otherwise the resolved pathname leads. The resolved search is kept unless the action (default ".") is "." in an index route; then the href is the pathname plus the `?index`-rewritten search, which strips back to the resolved search |
| Controller.FormActionIndexRoute | packages/preact-signals/src/remix-router-preact-signals.tsx:389-406 | with no search, an index route's default action is its pathname plus "?index"; any other route's is the bare pathname |
| Controller.RouteError | packages/lit/src/new-router.ts:214-223 | throws the "No RouteContext available" invariant exactly when the host is outside every route. Otherwise a truthy render error from the error context wins; failing that, `errors[id]` for the context's route id, or undefined without an errors object |
| Controller.RouteErrorTruthy | packages/lit/src/router.ts:141-150 | inside a route, the route error is truthy exactly when the render error or the recorded error is |
| Controller.SubmitImpl | packages/lit/src/remix-router-lit.ts:907-937 | throws exactly when there is no document. Otherwise the result is a `fetch` exactly when both key and route id are non-empty, and a navigation otherwise. The href is the URL's pathname plus search, and the options are `replace` plus the form's data, method and encoding |
| Controller.FetcherSubmitFetches | packages/preact-signals/src/remix-router-preact-signals.tsx:485-495 | a fetcher's key is never empty, so its submissions fetch exactly when its route id is non-empty |
| Controller.PlainSubmitNavigates | packages/preact-signals/src/remix-router-preact-signals.tsx:408-418 | `submit` without a fetcher always navigates |
| Controller.FetcherKey | packages/preact-signals/src/remix-router-preact-signals.tsx:449 | a key is a non-empty digit string without a leading zero that parses back to its counter value, i.e. `String(n)` |
| Controller.InitialFetchers | packages/lit/src/router.ts:314 | a controller starts with no recorded keys, which is valid bookkeeping |
| Controller.GetFetcher | packages/lit/src/router.ts:253-258 | the shared counter goes up by one; the key is its new value in decimal and is appended to the recorded keys |
| Controller.OtherFetcher | packages/lit/src/remix-router-lit.ts:463 | a key taken elsewhere only advances the shared counter |
| Controller.GetFetcherPreservesValid | packages/lit/src/router.ts:364 | taking keys here or elsewhere keeps every recorded key a taken counter value, increasing along the list |
| Controller.ValidKeysDistinct | packages/lit/src/router.ts:257-258 | valid bookkeeping records no key twice |
| Controller.GetFetcherFresh | packages/lit/src/router.ts:257 | a new key differs from every key recorded before it |
| Controller.CreateFetcher | packages/lit/src/router.ts:253-258 | throws the "No RouteContext available" invariant exactly when the host is outside every route, before any key is taken. Otherwise `getFetcher()` takes the next key from `GetFetcher` and captures the route's id and default action with it |
| Controller.FetcherLoad | packages/lit/src/router.ts:308-310 | `load(href)` fetches with the fetcher's key, its route id and the href, and no submission |
| Controller.FetcherSubmit | packages/lit/src/router.ts:298-307 | throws exactly when there is no document. Otherwise, for a non-empty key and route id it sends `fetch` with the fetcher's key and route id, and the href and options read off the form against the captured default action; with an empty key or route id it navigates |
| Controller.FetcherTargetsOwnKey | packages/lit/src/router.ts:253-311 | a new fetcher's key is fresh and recorded last, and the bookkeeping stays valid; its loads and, in a route with a non-empty id, its submissions go to `fetch` with that key and that route id |
| Controller.HostDisconnected | packages/lit/src/router.ts:357-361 | one `deleteFetcher` per recorded key, in recording order |
| Controller.DisconnectDeletesRecorded | packages/lit/src/remix-router-lit.ts:286-288 | a key is deleted exactly when it was recorded, and with valid bookkeeping each key once |

## Left out

- Rendering, templating and the UI frameworks are not modelled. That covers
  JSX, `html`, `unsafeHTML`, `when` and `until`, Preact signals and
  `useComputed`, Lit contexts and `requestUpdate`, and the router provider.
  An outlet's result is a `RouteView` value naming what would render.
- The engine is not modelled. `resolveTo` is a parameter. `navigate`,
  `fetch` and `deleteFetcher` are emitted commands. `getFetcher`'s read of
  fetcher state and `createRouter` are absent.
- `createURL`, `createHref` and `href`/`useHref` are not modelled: they read
  `window`. `getFormSubmissionInfo` is a parameter.
- The link and form directives are not modelled, nor the event listeners of
  `elements/route-error-boundary.ts`. Both are DOM event wiring.
- The async `await` helpers of the Lit controllers are not modelled.
  `<Await>`'s asynchronous settlement is represented only by the `_data` and
  `_error` a later render observes.
- `useFetchers` and the `fetchers` getters copy the engine's fetcher map
  into an array and are not modelled. Nor are the `loaderData`/`actionData`
  lookups, which are plain property reads (`Js.Get`).
- The Preact wrapper's key (`${id}:${location.key}`), which only forces
  remounts, is not modelled. Neither is the `location` object handed to the
  error boundary (modelled only as an identity).
- Controller.FetcherKey: fetcher ids are unbounded naturals. A counter
  beyond 2^53, where `++fetcherId` stops being exact, is not modelled.
- Controller.Navigate: numbers are integers. A fractional or NaN delta is
  not modelled, nor an explicit `null` options object (which throws in
  the Preact copy).
- Js.Value: numbers are integers. NaN (falsy) and fractional numbers are
  not represented, so an error, flag or view that is NaN is not modelled.
- Js.Get: looks up own entries only. Names inherited from
  `Object.prototype` (such as `toString`) are not modelled as present.
- Outlet.OutletImpl: a router `errors` of null is represented as the empty
  entry list; both select null.
- RouteContexts.NoRouteContextMessage: the invariant message is the one a
  development build of tiny-invariant produces; a production build drops
  the text after "Invariant failed".
- The router-context invariant ("No RouterContext available"), which every
  operation reads before the route context, is not modelled: every
  operation is taken to run under the router provider.
- Controller.Navigate: the Preact `useNavigate` reads the route context
  when the hook runs rather than when `navigate` is called; the model
  places the read, and its throw, in the call.
- Outlet.RenderRoute: the view is the route's view as given. The
  remix-router-lit.ts copy renders an empty string for a route without
  `element`, and that is not modelled.
- RouteContexts.LitWrapperContext: reads the controller's projected
  matches. The model slices the router matches, whose route ids are the
  same.

## Findings

| source | as written | input that shows it | evidently intended | confidence | as-written member | corrected member |
|---|---|---|---|---|---|---|
| packages/lit/src/remix-router-lit.ts:639-646 | the route wrapper publishes `matches.slice(0, findIndex(id))`, which drops the route's own match; when the id is unmatched the end is -1, which keeps all but the last match | matches for routes "0" then "0-0": the wrapper of "0-0" publishes only the "0" match, and a wrapper with id "1" publishes the "0" match | `slice(0, findIndex(id) + 1)`, as in the Preact adapter, new-router.ts and elements/route-wrapper.ts: the matches through the route's own, empty when unmatched | medium, not executed | RouteContexts.LitWrapperCounterexample | RouteContexts.WrapperContext |

=== FILE: await.dfy ===
/**
 * The Preact adapter's `<Await>`: the error boundary around it classifies the
 * `resolve` prop as pending, resolved or failed, and from that decides
 * whether to render the children, render the error element, or throw (to the
 * suspense boundary, to the route's error boundary, or forever).
 */
module Await {
  import opened Js

  /**
   * The `resolve` prop: a value that is not a promise, or a promise with the
   * `_tracked`, `_data` and `_error` properties the router attaches to
   * deferred promises (undefined while unset).
   */
  datatype Resolve =
    | Plain(value: Value)
    | Promise(tracked: bool, data: Value, error: Value)

  datatype Status = Pending | Success | Error

  /**
   * The status `render` settles on, given the error the boundary caught
   * during an earlier render (null when none).
   */
  function Classify(resolve: Resolve, caught: Value): (s: Status)
    ensures resolve.Plain? ==> s == Success
    ensures resolve.Promise? && Truthy(caught) ==> s == Error
    ensures resolve.Promise? && !Truthy(caught) && resolve.tracked ==>
              (s == Error <==> resolve.error != Undefined)
              && (s == Success <==> resolve.error == Undefined && resolve.data != Undefined)
    ensures resolve.Promise? && !Truthy(caught) && !resolve.tracked ==> s == Pending
  {
    match resolve
    case Plain(_) => Success
    case Promise(tracked, data, error) =>
      if Truthy(caught) then Error
      else if tracked then
        (if error != Undefined then Error else if data != Undefined then Success else Pending)
      else Pending
  }

  /** The `_error` of the promise `render` ends up holding. */
  function PromiseError(resolve: Resolve, caught: Value): Value {
    match resolve
    case Plain(_) => Undefined
    case Promise(_, _, error) => if Truthy(caught) then caught else error
  }

  /** The `_data` of the promise `render` ends up holding. */
  function PromiseData(resolve: Resolve): Value {
    match resolve
    case Plain(v) => v
    case Promise(_, data, _) => data
  }

  predicate IsAbortedDeferred(v: Value) {
    v.Obj? && v.kind == AbortedDeferredError
  }

  datatype Outcome =
    | SuspendForever         // throws a promise that never settles
    | Rethrow(error: Value)  // throws the error to the route's error boundary
    | RenderErrorElement(error: Value)
    | RenderChildren(data: Value)
    | Suspend                // throws the pending promise to the suspense boundary

  /** `render`: what the boundary does with its classification. */
  function Render(resolve: Resolve, caught: Value, errorElement: Value): (o: Outcome)
    ensures o.SuspendForever? <==> Classify(resolve, caught) == Error && IsAbortedDeferred(PromiseError(resolve, caught))
    ensures o.Rethrow? <==> Classify(resolve, caught) == Error && !IsAbortedDeferred(PromiseError(resolve, caught))
                            && !Truthy(errorElement)
    ensures o.RenderErrorElement? <==> Classify(resolve, caught) == Error && !IsAbortedDeferred(PromiseError(resolve, caught))
                                       && Truthy(errorElement)
    ensures o.Rethrow? ==> o.error == PromiseError(resolve, caught)
    ensures o.RenderErrorElement? ==> o.error == PromiseError(resolve, caught)
    ensures o.RenderChildren? <==> Classify(resolve, caught) == Success
    ensures o.RenderChildren? ==> o.data == PromiseData(resolve)
    ensures o.Suspend? <==> Classify(resolve, caught) == Pending
  {
    var status := Classify(resolve, caught);
    if status == Error && IsAbortedDeferred(PromiseError(resolve, caught)) then SuspendForever
    else if status == Error && !Truthy(errorElement) then Rethrow(PromiseError(resolve, caught))
    else if status == Error then RenderErrorElement(PromiseError(resolve, caught))
    else if status == Success then RenderChildren(PromiseData(resolve))
    else Suspend
  }

  /**
   * The one effect of `render` on its prop: an untracked promise is marked
   * tracked (its settlement later fills in `_data` or `_error`).
   */
  function Track(resolve: Resolve, caught: Value): (r: Resolve)
    ensures resolve.Promise? && !resolve.tracked && !Truthy(caught) ==> r == resolve.(tracked := true)
    ensures !(resolve.Promise? && !resolve.tracked && !Truthy(caught)) ==> r == resolve
  {
    if resolve.Promise? && !resolve.tracked && !Truthy(caught) then resolve.(tracked := true) else resolve
  }

  /** A non-promise value always renders the children with that value, whatever error was caught. */
  lemma PlainValueRenders(v: Value, caught: Value, errorElement: Value)
    ensures Render(Plain(v), caught, errorElement) == RenderChildren(v)
  {
  }

  /** Tracking is invisible until the promise settles: the next render suspends again. */
  lemma TrackedStillPending(resolve: Resolve, caught: Value, errorElement: Value)
    requires resolve.Promise? && !resolve.tracked && !Truthy(caught)
    requires resolve.data == Undefined && resolve.error == Undefined
    ensures Render(Track(resolve, caught), caught, errorElement) == Suspend
    ensures Render(resolve, caught, errorElement) == Suspend
  {
  }

  /** A settled, tracked promise renders its data, or its error through the error element. */
  lemma SettledPromiseRenders(data: Value, error: Value, errorElement: Value)
    requires Truthy(errorElement) && !IsAbortedDeferred(error)
    ensures error != Undefined ==> Render(Promise(true, data, error), Null, errorElement) == RenderErrorElement(error)
    ensures error == Undefined && data != Undefined ==>
              Render(Promise(true, data, error), Null, errorElement) == RenderChildren(data)
  {
  }
}

=== FILE: controller.dfy ===
/**
 * The controller operations the adapters offer a route's view: navigating,
 * computing a form's default action, reading the route's error, submitting,
 * and the fetcher keys. Every call into the router engine is an input
 * (`resolveTo`, the submission info the DOM helpers read off a form) or an
 * emitted `Command` (`router.navigate`, `router.fetch`,
 * `router.deleteFetcher`).
 */
module Controller {
  import opened Js
  import opened Paths
  import opened Matches
  import opened RouteContexts

  /** The engine's `resolveTo(to, routePathnames, locationPathname)`. */
  type Resolver = (To, seq<string>, string) -> Path

  /** The options the engine's navigation receives from a submission. */
  datatype Submission = Submission(replace: Value, formData: Value, formMethod: string, formEncType: string)

  /** A call the adapters make on the router engine. */
  datatype Command =
    | Go(delta: int)                                  // router.navigate(delta)
    | NavigateTo(path: Path, replace: Value, state: Value)
    | NavigateHref(href: string, submission: Submission)
    | Fetch(key: string, routeId: string, href: string, options: Option<Submission>)
    | DeleteFetcher(key: string)

  /**
   * The pathname bases a relative path resolves against: those of the
   * route's path-contributing matches, in order.
   */
  function RelativeBases(ctx: RouteContext): (bases: seq<string>)
    ensures |bases| <= |ctx.matches|
    ensures |ctx.matches| > 0 ==> |bases| > 0 && bases[0] == ctx.matches[0].pathnameBase
  {
    PathnameBases(GetPathContributingMatches(ctx.matches))
  }

  /** Each base is the base of a contributing match, and the bases come in match order. */
  lemma RelativeBasesContribute(ctx: RouteContext) returns (idx: seq<nat>)
    ensures |idx| == |RelativeBases(ctx)| && StrictlyIncreasing(idx)
    ensures forall k :: 0 <= k < |idx| ==>
              idx[k] < |ctx.matches| && Contributes(ctx.matches, idx[k])
              && RelativeBases(ctx)[k] == ctx.matches[idx[k]].pathnameBase
  {
    idx := PathContributingSelection(ctx.matches);
    forall k | 0 <= k < |idx|
      ensures Contributes(ctx.matches, idx[k])
    {
      assert idx[k] in idx;
    }
  }

  datatype NavigateOptions = NavigateOptions(replace: Value, state: Value)

  /** The first argument of `navigate`: a history delta or a destination. */
  datatype Target = Delta(delta: int) | Destination(to: To)

  /**
   * `navigate(to, options)`: the route context is read first, and a host
   * outside every route throws. Then a number goes to the engine as it is; a
   * destination is resolved against the route's contributing matches and
   * the current pathname, and sent with the options' `replace` and `state`.
   */
  function Navigate(target: Target, options: NavigateOptions, ctx: Option<RouteContext>,
                    locationPathname: string, resolveTo: Resolver): (r: Completion<Command>)
    ensures r.Throws? <==> ctx.None?
    ensures r.Throws? ==> r.message == NoRouteContextMessage
    ensures r.Returns? ==> (target.Delta? <==> r.value.Go?)
    ensures r.Returns? && target.Delta? ==> r.value.delta == target.delta
    ensures r.Returns? && target.Destination? ==>
              r.value.NavigateTo? && r.value.replace == options.replace && r.value.state == options.state
              && r.value.path == resolveTo(target.to, RelativeBases(ctx.value), locationPathname)
  {
    if ctx.None? then Throws(NoRouteContextMessage)
    else
      match target
      case Delta(d) => Returns(Go(d))
      case Destination(to) =>
        Returns(NavigateTo(resolveTo(to, RelativeBases(ctx.value), locationPathname), options.replace, options.state))
  }

  /**
   * A history delta is forwarded without any path resolution: once a route
   * context exists, the result depends neither on that context's contents,
   * the location, the options nor the resolver. Without a route context
   * even a delta throws, since the context is read before the number is
   * looked at.
   */
  lemma NavigateDeltaResolvesNothing(delta: int, o1: NavigateOptions, o2: NavigateOptions,
                                     c1: RouteContext, c2: RouteContext, p1: string, p2: string,
                                     r1: Resolver, r2: Resolver)
    ensures Navigate(Delta(delta), o1, Some(c1), p1, r1) == Navigate(Delta(delta), o2, Some(c2), p2, r2)
            == Returns(Go(delta))
    ensures Navigate(Delta(delta), o1, None, p1, r1) == Throws(NoRouteContextMessage)
  {
  }

  /** Two route contexts with the same contributing bases navigate alike. */
  lemma NavigateDependsOnBases(to: To, options: NavigateOptions, c1: RouteContext, c2: RouteContext,
                               locationPathname: string, resolveTo: Resolver)
    requires RelativeBases(c1) == RelativeBases(c2)
    ensures Navigate(Destination(to), options, Some(c1), locationPathname, resolveTo)
            == Navigate(Destination(to), options, Some(c2), locationPathname, resolveTo)
  {
  }

  /** The action `formAction` / `useFormAction` resolves; `"."` when none is given. */
  function ActionOrDefault(action: Option<string>): string {
    action.GetOr(".")
  }

  /**
   * `formAction(action)`: without a route context it throws. Otherwise the
   * action is resolved like a link, then, for the default action `"."` in an
   * index route, `index` is put into the search so the submission reaches
   * the index route rather than its parent.
   */
  function FormAction(action: Option<string>, ctx: Option<RouteContext>, locationPathname: string,
                      resolveTo: Resolver): (r: Completion<string>)
    ensures r.Throws? <==> ctx.None?
    ensures r.Throws? ==> r.message == NoRouteContextMessage
    ensures r.Returns? ==>
              var href := r.value;
              var resolved := resolveTo(Href(ActionOrDefault(action)), RelativeBases(ctx.value), locationPathname);
              |resolved.pathname| <= |href| && href[..|resolved.pathname|] == resolved.pathname
              && (!(ActionOrDefault(action) == "." && ctx.value.index) ==> href == resolved.pathname + resolved.search)
              && (ActionOrDefault(action) == "." && ctx.value.index ==>
                    href == resolved.pathname + IndexSearch(resolved.search)
                    && StripIndexParam(href[|resolved.pathname|..]) == resolved.search)
  {
    if ctx.None? then Throws(NoRouteContextMessage)
    else
      var a := ActionOrDefault(action);
      Returns(FormActionHref(a, ctx.value.index, resolveTo(Href(a), RelativeBases(ctx.value), locationPathname)))
  }

  /**
   * The default action of an index route whose location has no search
   * (resolved to search "") is its pathname followed by "?index"; outside an
   * index route it is the bare pathname.
   */
  lemma FormActionIndexRoute(ctx: RouteContext, locationPathname: string, resolveTo: Resolver)
    requires resolveTo(Href("."), RelativeBases(ctx), locationPathname).search == ""
    ensures var pathname := resolveTo(Href("."), RelativeBases(ctx), locationPathname).pathname;
            FormAction(None, Some(ctx), locationPathname, resolveTo)
            == Returns(if ctx.index then pathname + "?index" else pathname)
  {
    var resolved := resolveTo(Href("."), RelativeBases(ctx), locationPathname);
    var href := FormActionHref(".", ctx.index, resolved);
    assert FormAction(None, Some(ctx), locationPathname, resolveTo) == Returns(href);
    if ctx.index {
      assert href == resolved.pathname + IndexSearch("");
    } else {
      assert href == resolved.pathname + "";
      assert resolved.pathname + "" == resolved.pathname;
    }
  }

  /**
   * `routeError`: without a route context it throws. Otherwise a truthy
   * render error from the error context wins; failing that, the router's
   * `errors?.[id]` for the context's route (undefined without errors).
   */
  function RouteError(errorCtx: Option<Value>, errors: Option<Entries>, ctx: Option<RouteContext>): (r: Completion<Value>)
    ensures r.Throws? <==> ctx.None?
    ensures r.Throws? ==> r.message == NoRouteContextMessage
    ensures r.Returns? && errorCtx.Some? && Truthy(errorCtx.value) ==> r.value == errorCtx.value
    ensures r.Returns? && !(errorCtx.Some? && Truthy(errorCtx.value)) && errors.Some? ==>
              r.value == Get(errors.value, ctx.value.id)
    ensures r.Returns? && !(errorCtx.Some? && Truthy(errorCtx.value)) && errors.None? ==> r.value == Undefined
  {
    if ctx.None? then Throws(NoRouteContextMessage)
    else
      var rendered := match errorCtx case Some(v) => v case None => Undefined;
      var recorded := match errors case Some(es) => Get(es, ctx.value.id) case None => Undefined;
      Returns(Or(rendered, recorded))
  }

  /**
   * Inside a route, the route has an error to show exactly when a truthy
   * render error was caught or the router recorded a truthy error for it.
   */
  lemma RouteErrorTruthy(errorCtx: Option<Value>, errors: Entries, ctx: RouteContext)
    ensures var r := RouteError(errorCtx, Some(errors), Some(ctx));
            r.Returns? && (Truthy(r.value) <==> (errorCtx.Some? && Truthy(errorCtx.value)) || Truthy(Get(errors, ctx.id)))
  {
  }

  /**
   * What the DOM helper `getFormSubmissionInfo` reads off the submitted
   * form, button or data, given the default action: the method, encoding,
   * form data and the URL's pathname and search.
   */
  datatype SubmissionInfo = SubmissionInfo(formMethod: string, formEncType: string, formData: Value,
                                           urlPathname: string, urlSearch: string)

  /**
   * `submitImpl`: refuses to run without a document; otherwise submits the
   * form to `router.fetch` when both a fetcher key and a route id are
   * non-empty, and to `router.navigate` otherwise, with the URL's pathname and
   * search as the href.
   */
  function SubmitImpl(hasDocument: bool, defaultAction: string, submissionInfo: string -> SubmissionInfo,
                      replace: Value, fetcherKey: Option<string>, routeId: Option<string>): (r: Completion<Command>)
    ensures r.Throws? <==> !hasDocument
    ensures r.Throws? ==> r.message == "Unable to submit during server render"
    ensures r.Returns? ==> (r.value.Fetch? <==> NonEmpty(fetcherKey) && NonEmpty(routeId))
    ensures r.Returns? ==> (r.value.NavigateHref? <==> !(NonEmpty(fetcherKey) && NonEmpty(routeId)))
    ensures r.Returns? && r.value.Fetch? ==>
              r.value.key == fetcherKey.value && r.value.routeId == routeId.value
    ensures r.Returns? && (r.value.Fetch? || r.value.NavigateHref?) ==>
              var info := submissionInfo(defaultAction);
              SubmittedHref(r.value) == info.urlPathname + info.urlSearch
              && SubmittedOptions(r.value) == Some(Submission(replace, info.formData, info.formMethod, info.formEncType))
  {
    if !hasDocument then
      Throws("Unable to submit during server render")
    else
      var info := submissionInfo(defaultAction);
      var href := info.urlPathname + info.urlSearch;
      var opts := Submission(replace, info.formData, info.formMethod, info.formEncType);
      if NonEmpty(fetcherKey) && NonEmpty(routeId) then
        Returns(Fetch(fetcherKey.value, routeId.value, href, Some(opts)))
      else
        Returns(NavigateHref(href, opts))
  }

  /** The href a navigation or fetch command carries ("" for the others). */
  function SubmittedHref(c: Command): string {
    match c
    case NavigateHref(href, _) => href
    case Fetch(_, _, href, _) => href
    case _ => ""
  }

  /** The submission options a command carries, if any. */
  function SubmittedOptions(c: Command): Option<Submission> {
    match c
    case NavigateHref(_, s) => Some(s)
    case Fetch(_, _, _, s) => s
    case _ => None
  }

  /**
   * A fetcher always has a non-empty key, so its submissions go to
   * `router.fetch` exactly when its route id is non-empty; a route with id
   * "" makes its fetcher's submissions navigations.
   */
  lemma FetcherSubmitFetches(n: nat, defaultAction: string, submissionInfo: string -> SubmissionInfo,
                             replace: Value, routeId: string)
    ensures var r := SubmitImpl(true, defaultAction, submissionInfo, replace, Some(FetcherKey(n)), Some(routeId));
            r.Returns? && (r.value.Fetch? <==> routeId != "")
  {
  }

  /** A plain `submit` (no fetcher) always navigates, once there is a document. */
  lemma PlainSubmitNavigates(defaultAction: string, submissionInfo: string -> SubmissionInfo, replace: Value)
    ensures var r := SubmitImpl(true, defaultAction, submissionInfo, replace, None, None);
            r.Returns? && r.value.NavigateHref?
  {
  }

  /** `String(n)`: the key of the fetcher allocated when the counter reaches `n`. */
  function FetcherKey(n: nat): (key: string)
    ensures |key| > 0 && AllDigits(key)
    ensures |key| > 1 ==> key[0] != '0'
    ensures ParseDecimal(key) == n
  {
    ParseDecimalString(n);
    DecimalString(n)
  }

  /**
   * The fetcher bookkeeping of one controller: `lastId` is the module-wide
   * counter `fetcherId` (shared by every controller), `keys` this
   * controller's `fetcherKeys`, in allocation order.
   */
  datatype Fetchers = Fetchers(lastId: nat, keys: seq<string>)

  /**
   * Every recorded key is the decimal form of a counter value already taken,
   * and the values increase along the list.
   */
  predicate Valid(f: Fetchers) {
    && (forall i :: 0 <= i < |f.keys| ==> AllDigits(f.keys[i]) && 0 < ParseDecimal(f.keys[i]) <= f.lastId)
    && (forall i, j :: 0 <= i < j < |f.keys| ==> ParseDecimal(f.keys[i]) < ParseDecimal(f.keys[j]))
  }

  function InitialFetchers(lastId: nat): (f: Fetchers)
    ensures Valid(f) && f.keys == []
  {
    Fetchers(lastId, [])
  }

  /**
   * `getFetcher`: `String(++fetcherId)` is the new key, recorded at the end
   * of `fetcherKeys`; the engine call `router.getFetcher(key)` only reads.
   */
  function GetFetcher(f: Fetchers): (r: (Fetchers, string))
    ensures r.0.lastId == f.lastId + 1
    ensures r.0.keys == f.keys + [r.1]
    ensures |r.1| > 0 && AllDigits(r.1) && ParseDecimal(r.1) == r.0.lastId
    ensures r.1 == FetcherKey(r.0.lastId)
  {
    var key := FetcherKey(f.lastId + 1);
    (Fetchers(f.lastId + 1, f.keys + [key]), key)
  }

  /** Another controller takes a key: only the shared counter moves. */
  function OtherFetcher(f: Fetchers): (g: Fetchers)
    ensures g.lastId == f.lastId + 1 && g.keys == f.keys
  {
    f.(lastId := f.lastId + 1)
  }

  /** Taking keys, here or elsewhere, keeps the bookkeeping valid. */
  lemma GetFetcherPreservesValid(f: Fetchers)
    requires Valid(f)
    ensures Valid(GetFetcher(f).0)
    ensures Valid(OtherFetcher(f))
  {
    var g := GetFetcher(f).0;
    assert ParseDecimal(g.keys[|f.keys|]) == f.lastId + 1;
    forall i | 0 <= i < |g.keys|
      ensures AllDigits(g.keys[i]) && 0 < ParseDecimal(g.keys[i]) <= g.lastId
    {
      if i < |f.keys| {
        assert g.keys[i] == f.keys[i];
      }
    }
    forall i, j | 0 <= i < j < |g.keys|
      ensures ParseDecimal(g.keys[i]) < ParseDecimal(g.keys[j])
    {
      assert g.keys[i] == f.keys[i];
      if j < |f.keys| {
        assert g.keys[j] == f.keys[j];
      }
    }
  }

  /** In valid bookkeeping no key is recorded twice. */
  lemma ValidKeysDistinct(f: Fetchers)
    requires Valid(f)
    ensures forall i, j :: 0 <= i < j < |f.keys| ==> f.keys[i] != f.keys[j]
  {
  }

  /** A newly taken key differs from every key recorded before it. */
  lemma GetFetcherFresh(f: Fetchers)
    requires Valid(f)
    ensures GetFetcher(f).1 !in f.keys
  {
    var key := GetFetcher(f).1;
    forall i | 0 <= i < |f.keys|
      ensures f.keys[i] != key
    {
      assert ParseDecimal(f.keys[i]) <= f.lastId < ParseDecimal(key);
    }
  }

  /**
   * What `getFetcher` hands the view besides the engine's fetcher state: the
   * key it allocated, the id of the route it was called in, and that route's
   * default form action, all captured once.
   */
  datatype FetcherHandle = FetcherHandle(key: string, routeId: string, defaultAction: string)

  /**
   * `getFetcher()`: the route context is read before the counter moves, so
   * a host outside every route throws and takes no key. Otherwise a key is
   * allocated and the route's id and default action are captured with it.
   */
  function CreateFetcher(f: Fetchers, ctx: Option<RouteContext>, defaultAction: string)
    : (r: Completion<(Fetchers, FetcherHandle)>)
    ensures r.Throws? <==> ctx.None?
    ensures r.Throws? ==> r.message == NoRouteContextMessage
    ensures r.Returns? ==> r.value.0 == GetFetcher(f).0
    ensures r.Returns? ==> r.value.1 == FetcherHandle(GetFetcher(f).1, ctx.value.id, defaultAction)
  {
    if ctx.None? then Throws(NoRouteContextMessage)
    else
      var (g, key) := GetFetcher(f);
      Returns((g, FetcherHandle(key, ctx.value.id, defaultAction)))
  }

  /** `load(href)`: a fetcher load goes to `router.fetch` without submission options. */
  function FetcherLoad(h: FetcherHandle, href: string): (c: Command)
    ensures c.Fetch? && c.key == h.key && c.routeId == h.routeId && c.href == href && c.options.None?
  {
    Fetch(h.key, h.routeId, href, None)
  }

  /**
   * The fetcher's `submit`: `submitImpl` with the captured default action,
   * key and route id. With a document, a fetcher of a route with a non-empty
   * id fetches under its own key and route; the href and options come from
   * the form as read against the captured default action.
   */
  function FetcherSubmit(h: FetcherHandle, hasDocument: bool, submissionInfo: string -> SubmissionInfo,
                         replace: Value): (r: Completion<Command>)
    ensures r.Throws? <==> !hasDocument
    ensures hasDocument && h.key != "" && h.routeId != "" ==>
              var info := submissionInfo(h.defaultAction);
              r == Returns(Fetch(h.key, h.routeId, info.urlPathname + info.urlSearch,
                                 Some(Submission(replace, info.formData, info.formMethod, info.formEncType))))
    ensures hasDocument && (h.key == "" || h.routeId == "") ==> r.Returns? && r.value.NavigateHref?
  {
    SubmitImpl(hasDocument, h.defaultAction, submissionInfo, replace, Some(h.key), Some(h.routeId))
  }

  /**
   * A fetcher's loads and submissions reach the engine under the key
   * `getFetcher` allocated for it, a key no earlier fetcher of the controller
   * holds and the last one recorded, and under the route it was created in.
   */
  lemma FetcherTargetsOwnKey(f: Fetchers, ctx: RouteContext, defaultAction: string, href: string,
                             submissionInfo: string -> SubmissionInfo, replace: Value)
    requires Valid(f)
    ensures CreateFetcher(f, Some(ctx), defaultAction).Returns?
    ensures var (g, h) := CreateFetcher(f, Some(ctx), defaultAction).value;
            && Valid(g) && |g.keys| > 0 && g.keys[|g.keys| - 1] == h.key && h.key !in f.keys
            && h.routeId == ctx.id && h.defaultAction == defaultAction
            && FetcherLoad(h, href).key == h.key && FetcherLoad(h, href).routeId == ctx.id
            && (ctx.id != "" ==>
                  var r := FetcherSubmit(h, true, submissionInfo, replace);
                  r.Returns? && r.value.Fetch? && r.value.key == h.key && r.value.routeId == ctx.id
                  && r.value.key == FetcherLoad(h, href).key)
  {
    GetFetcherPreservesValid(f);
    GetFetcherFresh(f);
  }

  /**
   * `hostDisconnected`: `router.deleteFetcher(key)` for every recorded key,
   * in recording order. The list itself is not cleared.
   */
  method HostDisconnected(f: Fetchers) returns (cmds: seq<Command>)
    ensures |cmds| == |f.keys|
    ensures forall i :: 0 <= i < |cmds| ==> cmds[i] == DeleteFetcher(f.keys[i])
  {
    cmds := [];
    var i := 0;
    while i < |f.keys|
      invariant i <= |f.keys|
      invariant |cmds| == i
      invariant forall k :: 0 <= k < i ==> cmds[k] == DeleteFetcher(f.keys[k])
    {
      cmds := cmds + [DeleteFetcher(f.keys[i])];
      i := i + 1;
    }
  }

  /** Exactly the recorded keys are deleted, and with valid bookkeeping each once. */
  lemma DisconnectDeletesRecorded(f: Fetchers, cmds: seq<Command>)
    requires Valid(f)
    requires |cmds| == |f.keys|
    requires forall i :: 0 <= i < |cmds| ==> cmds[i] == DeleteFetcher(f.keys[i])
    ensures forall key :: DeleteFetcher(key) in cmds <==> key in f.keys
    ensures forall i, j :: 0 <= i < j < |cmds| ==> cmds[i] != cmds[j]
  {
    ValidKeysDistinct(f);
    forall key
      ensures DeleteFetcher(key) in cmds <==> key in f.keys
    {
      if DeleteFetcher(key) in cmds {
        var i :| 0 <= i < |cmds| && cmds[i] == DeleteFetcher(key);
        assert f.keys[i] == key;
      }
      if key in f.keys {
        var i :| 0 <= i < |f.keys| && f.keys[i] == key;
        assert cmds[i] == DeleteFetcher(key);
      }
    }
  }
}

=== FILE: error_boundary.dfy ===
/**
 * The Preact adapter's route error boundary. It keeps two fields, the error
 * it shows and the location it was shown at, and derives them anew from its
 * props on every render: a new location clears a stale error, the same
 * location keeps an error that the router state has since dropped.
 */
module ErrorBoundary {
  import opened Js

  /** A location object, compared by identity (`!==`). */
  type LocationRef = nat

  datatype Props = Props(location: LocationRef, error: Value)

  datatype State = State(error: Value, location: LocationRef)

  /**
   * The constructor: start from the props. The first render then derives
   * nothing new from the same props, and shows the error view exactly when
   * the router handed the boundary a truthy error.
   */
  function InitialState(props: Props): (s: State)
    ensures s.error == props.error && s.location == props.location
    ensures DerivedStateFromProps(props, s) == s
    ensures Render(s).ErrorView? <==> Truthy(props.error)
  {
    State(props.error, props.location)
  }

  /** `getDerivedStateFromError`: a render error caught below replaces the error, the location stays. */
  function DerivedStateFromError(state: State, caught: Value): (s: State)
    ensures s.error == caught && s.location == state.location
  {
    state.(error := caught)
  }

  /** `getDerivedStateFromProps`. */
  function DerivedStateFromProps(props: Props, state: State): (s: State)
    ensures s.location == props.location
    ensures state.location != props.location ==> s.error == props.error
    ensures state.location == props.location && Truthy(props.error) ==> s.error == props.error
    ensures state.location == props.location && !Truthy(props.error) ==> s.error == state.error
  {
    if state.location != props.location then
      State(props.error, props.location)
    else
      State(Or(props.error, state.error), state.location)
  }

  datatype Rendered = ErrorView(error: Value) | Children

  /** `render`: the error view (inside an error wrapper) when the error is truthy, the children otherwise. */
  function Render(state: State): (r: Rendered)
    ensures r.ErrorView? <==> Truthy(state.error)
    ensures r.ErrorView? ==> r.error == state.error
  {
    if Truthy(state.error) then ErrorView(state.error) else Children
  }

  /** Navigating away recovers: at a new location without a router error, the children render again. */
  lemma NewLocationRecovers(props: Props, state: State)
    requires state.location != props.location
    requires !Truthy(props.error)
    ensures Render(DerivedStateFromProps(props, state)) == Children
  {
  }

  /**
   * At the same location an error, once shown, stays shown even after the
   * router state clears it; a new router error takes its place.
   */
  lemma SameLocationRetainsError(props: Props, state: State)
    requires state.location == props.location
    requires Truthy(state.error)
    ensures Render(DerivedStateFromProps(props, state)).ErrorView?
    ensures !Truthy(props.error) ==> DerivedStateFromProps(props, state) == state
  {
  }

  /** Deriving twice from the same props is deriving once. */
  lemma DerivedStateIdempotent(props: Props, state: State)
    ensures DerivedStateFromProps(props, DerivedStateFromProps(props, state)) == DerivedStateFromProps(props, state)
  {
  }

  /** A render error caught below is shown until the location changes. */
  lemma CaughtErrorShownUntilNavigation(props: Props, state: State, caught: Value)
    requires Truthy(caught)
    requires state.location == props.location
    ensures Render(DerivedStateFromProps(props, DerivedStateFromError(state, caught))).ErrorView?
  {
  }
}

=== FILE: js.dfy ===
/**
 * The slice of JavaScript semantics the router adapters lean on: values and
 * their truthiness, loose `== null`, the `||` operator, plain objects used as
 * string-keyed records, `Array.prototype.slice` with a negative end, and the
 * decimal rendering `String(n)` of a counter.
 */
module Js {

  /**
   * An object's identity, plus the one class test the adapters perform.
   * `BuiltinComponent` marks objects the adapters define themselves (the
   * default error component), which no application value can be.
   */
  datatype ObjKind = PlainObject | AbortedDeferredError | BuiltinComponent

  /**
   * A JavaScript value as far as the adapters inspect it. Numbers are
   * integers here, so NaN and fractions are not represented: the only falsy
   * number is 0.
   */
  datatype Value =
    | Undefined
    | Null
    | Bool(b: bool)
    | Num(n: int)
    | Str(s: string)
    | Obj(ref: nat, kind: ObjKind)

  datatype Option<+T> = None | Some(value: T) {
    function GetOr(default: T): T {
      match this
      case Some(v) => v
      case None => default
    }
  }

  /** Either the value a piece of code returns or the message of what it throws. */
  datatype Completion<+T> = Returns(value: T) | Throws(message: string)

  /** ToBoolean: the falsy values are undefined, null, false, 0 and "". */
  predicate Truthy(v: Value) {
    match v
    case Undefined => false
    case Null => false
    case Bool(b) => b
    case Num(n) => n != 0
    case Str(s) => s != ""
    case Obj(_, _) => true
  }

  /** `v == null` (loose equality): holds exactly for null and undefined. */
  predicate IsNullish(v: Value) {
    v.Undefined? || v.Null?
  }

  /** `a || b`: the first operand when it is truthy, the second otherwise. */
  function Or(a: Value, b: Value): Value {
    if Truthy(a) then a else b
  }

  /** An optional string read as a condition, as in `if (fetcherKey && routeId)`. */
  predicate NonEmpty(s: Option<string>) {
    s.Some? && s.value != ""
  }

  /**
   * A plain object used as a record keyed by route id (`errors`,
   * `loaderData`): its own properties in enumeration order, the order
   * `Object.values` reports them in.
   */
  type Entries = seq<(string, Value)>

  /** `obj[key]`: the value stored under `key`, or undefined when there is none. */
  function Get(obj: Entries, key: string): (v: Value)
    ensures v != Undefined ==> exists i :: 0 <= i < |obj| && obj[i] == (key, v)
    ensures (forall i :: 0 <= i < |obj| ==> obj[i].0 != key) ==> v == Undefined
    ensures forall i :: 0 <= i < |obj| && obj[i].0 == key && (forall j :: 0 <= j < i ==> obj[j].0 != key)
                        ==> v == obj[i].1
  {
    if |obj| == 0 then Undefined
    else if obj[0].0 == key then obj[0].1
    else Get(obj[1..], key)
  }

  /** No key is stored twice, as in any JavaScript object. */
  predicate DistinctKeys(obj: Entries) {
    forall i, j :: 0 <= i < j < |obj| ==> obj[i].0 != obj[j].0
  }

  /** In an object, looking up any stored key gives the value stored under it. */
  lemma GetEntry(obj: Entries, i: nat)
    requires DistinctKeys(obj)
    requires i < |obj|
    ensures Get(obj, obj[i].0) == obj[i].1
  {
    assert forall j :: 0 <= j < i ==> obj[j].0 != obj[i].0;
  }

  /**
   * `s.slice(0, end)` following ECMAScript's Array.prototype.slice: a negative
   * end counts back from the length and is clamped at zero, a large end is
   * clamped at the length.
   */
  function SliceTo<T>(s: seq<T>, end: int): (r: seq<T>)
    ensures 0 <= end <= |s| ==> r == s[..end]
    ensures end > |s| ==> r == s
    ensures end < 0 && |s| + end >= 0 ==> r == s[..|s| + end]
    ensures end < 0 && |s| + end < 0 ==> r == []
  {
    var stop := if end < 0 then (if |s| + end < 0 then 0 else |s| + end)
                else (if end > |s| then |s| else end);
    s[..stop]
  }

  predicate IsDigit(c: char) {
    '0' <= c <= '9'
  }

  predicate AllDigits(s: string) {
    forall i :: 0 <= i < |s| ==> IsDigit(s[i])
  }

  function DigitChar(d: nat): (c: char)
    requires d < 10
    ensures IsDigit(c) && (c as int) - ('0' as int) == d
  {
    (('0' as int) + d) as char
  }

  /** `String(n)` for a non-negative integer: its decimal digits, no leading zero. */
  function DecimalString(n: nat): (r: string)
    ensures |r| > 0 && AllDigits(r)
    ensures |r| > 1 ==> r[0] != '0'
    decreases n
  {
    if n < 10 then [DigitChar(n)]
    else DecimalString(n / 10) + [DigitChar(n % 10)]
  }

  /** The number a string of decimal digits denotes (the empty string reads as 0). */
  function ParseDecimal(s: string): nat
    requires AllDigits(s)
    decreases |s|
  {
    if |s| == 0 then 0
    else ParseDecimal(s[..|s| - 1]) * 10 + ((s[|s| - 1] as int) - ('0' as int))
  }

  /** Reading back the decimal rendering of `n` gives `n`. */
  lemma {:induction false} ParseDecimalString(n: nat)
    ensures ParseDecimal(DecimalString(n)) == n
    decreases n
  {
    if n >= 10 {
      var s := DecimalString(n);
      assert s[..|s| - 1] == DecimalString(n / 10);
      ParseDecimalString(n / 10);
    }
  }
}

=== FILE: matches.dfy ===
/**
 * The list of route matches the router reports for the current location
 * (outermost route first) and the pure helpers the adapters compute over it:
 * `findIndex` by route id, `getPathContributingMatches`, and the `matches`
 * projection the controllers expose.
 */
module Matches {
  import opened Js

  /**
   * The part of a matched data route the adapters read. `view` is what the
   * route renders (Component / element / template); `errorView` what it
   * renders on error (ErrorBoundary / errorElement / errorTemplate).
   */
  datatype DataRoute = DataRoute(id: string, index: Value, view: Value, errorView: Value, handle: Value)

  datatype Match = Match(route: DataRoute, pathname: string, pathnameBase: string, params: Value)

  /** Some match belongs to the route with this id. */
  predicate HasRoute(ms: seq<Match>, id: string) {
    exists i :: 0 <= i < |ms| && ms[i].route.id == id
  }

  /**
   * `ms.findIndex((m) => m.route.id === id)` where `id` may be undefined
   * (`routeContext?.id` at the root); a route id is always a string, so
   * undefined is never found.
   */
  function FindIndex(ms: seq<Match>, id: Option<string>): (k: int)
    ensures -1 <= k < |ms|
    ensures k >= 0 ==> id == Some(ms[k].route.id) && forall j :: 0 <= j < k ==> id != Some(ms[j].route.id)
    ensures k == -1 <==> forall j :: 0 <= j < |ms| ==> id != Some(ms[j].route.id)
  {
    if |ms| == 0 then -1
    else if id == Some(ms[0].route.id) then 0
    else
      var k := FindIndex(ms[1..], id);
      if k < 0 then -1 else k + 1
  }

  /** When route ids are distinct, the match found for `ms[k]`'s id is `ms[k]` itself. */
  lemma FindIndexDistinct(ms: seq<Match>, k: nat)
    requires DistinctRouteIds(ms)
    requires k < |ms|
    ensures FindIndex(ms, Some(ms[k].route.id)) == k
  {
  }

  predicate DistinctRouteIds(ms: seq<Match>) {
    forall i, j :: 0 <= i < j < |ms| ==> ms[i].route.id != ms[j].route.id
  }

  /**
   * The filter test of `getPathContributingMatches` at position `i`: the
   * first match always counts; a later one counts unless it is an index
   * route or shares its `pathnameBase` with the match just before it in the
   * input (a pathless layout route).
   */
  predicate Contributes(ms: seq<Match>, i: nat)
    requires i < |ms|
  {
    i == 0 || (!Truthy(ms[i].route.index) && ms[i].pathnameBase != ms[i - 1].pathnameBase)
  }

  /** The filter applied to the first `n` matches. */
  function ContributingPrefix(ms: seq<Match>, n: nat): (r: seq<Match>)
    requires n <= |ms|
    ensures |r| <= n
    ensures n > 0 ==> |r| > 0 && r[0] == ms[0]
    decreases n
  {
    if n == 0 then []
    else ContributingPrefix(ms, n - 1) + (if Contributes(ms, n - 1) then [ms[n - 1]] else [])
  }

  /** `getPathContributingMatches(matches)`: the matches whose paths build up a relative link's base. */
  function GetPathContributingMatches(ms: seq<Match>): (r: seq<Match>)
    ensures |r| <= |ms|
    ensures |ms| > 0 ==> |r| > 0 && r[0] == ms[0]
  {
    ContributingPrefix(ms, |ms|)
  }

  predicate StrictlyIncreasing(idx: seq<nat>) {
    forall a, b :: 0 <= a < b < |idx| ==> idx[a] < idx[b]
  }

  /**
   * The filter keeps exactly the contributing positions, in order: the result
   * is the input read at a strictly increasing list of positions, and a
   * position is on that list exactly when it passes the filter test.
   */
  lemma {:induction false} ContributingSelection(ms: seq<Match>, n: nat) returns (idx: seq<nat>)
    requires n <= |ms|
    ensures |idx| == |ContributingPrefix(ms, n)|
    ensures StrictlyIncreasing(idx)
    ensures forall k :: 0 <= k < |idx| ==> idx[k] < n && ContributingPrefix(ms, n)[k] == ms[idx[k]]
    ensures forall i :: 0 <= i < n ==> (i in idx <==> Contributes(ms, i))
    decreases n
  {
    if n == 0 {
      idx := [];
    } else {
      var prev := ContributingSelection(ms, n - 1);
      var before := ContributingPrefix(ms, n - 1);
      if Contributes(ms, n - 1) {
        idx := prev + [n - 1];
        assert ContributingPrefix(ms, n) == before + [ms[n - 1]];
        forall k | 0 <= k < |idx|
          ensures idx[k] < n && ContributingPrefix(ms, n)[k] == ms[idx[k]]
        {
          if k < |prev| {
            assert idx[k] == prev[k] && ContributingPrefix(ms, n)[k] == before[k];
          }
        }
        forall a, b | 0 <= a < b < |idx|
          ensures idx[a] < idx[b]
        {
          assert idx[a] == prev[a];
        }
        forall i | 0 <= i < n
          ensures i in idx <==> Contributes(ms, i)
        {
          assert i in idx <==> i in prev || i == n - 1;
        }
      } else {
        idx := prev;
        assert ContributingPrefix(ms, n) == before;
      }
    }
  }

  /** The whole-list form of `ContributingSelection`. */
  lemma PathContributingSelection(ms: seq<Match>) returns (idx: seq<nat>)
    ensures |idx| == |GetPathContributingMatches(ms)|
    ensures StrictlyIncreasing(idx)
    ensures forall k :: 0 <= k < |idx| ==> idx[k] < |ms| && GetPathContributingMatches(ms)[k] == ms[idx[k]]
    ensures forall i :: 0 <= i < |ms| ==> (i in idx <==> Contributes(ms, i))
  {
    idx := ContributingSelection(ms, |ms|);
  }

  /** `.map((match) => match.pathnameBase)`: the bases `resolveTo` resolves against. */
  function PathnameBases(ms: seq<Match>): (bases: seq<string>)
    ensures |bases| == |ms|
    ensures forall i :: 0 <= i < |ms| ==> bases[i] == ms[i].pathnameBase
  {
    seq(|ms|, i requires 0 <= i < |ms| => ms[i].pathnameBase)
  }

  /** An element of the `matches` getter: the match plus its id and its loader data. */
  datatype ProjectedMatch = ProjectedMatch(
    id: string,
    pathname: string,
    pathnameBase: string,
    route: DataRoute,
    params: Value,
    data: Value,
    handle: Value)

  /** The `matches` getter: every router match, in order, decorated from `loaderData`. */
  function ProjectMatches(ms: seq<Match>, loaderData: Entries): (r: seq<ProjectedMatch>)
    ensures |r| == |ms|
    ensures forall i :: 0 <= i < |ms| ==>
              r[i].id == ms[i].route.id && r[i].data == Get(loaderData, ms[i].route.id)
              && r[i].handle == ms[i].route.handle
  {
    seq(|ms|, i requires 0 <= i < |ms| =>
      var m := ms[i];
      ProjectedMatch(m.route.id, m.pathname, m.pathnameBase, m.route, m.params,
                     Get(loaderData, m.route.id), m.route.handle))
  }

  /** The match a projected match was built from. */
  function Unproject(p: ProjectedMatch): Match {
    Match(p.route, p.pathname, p.pathnameBase, p.params)
  }

  /** An element of the Preact adapter's `useMatches`: a smaller decoration of the same match. */
  datatype MatchSummary = MatchSummary(id: string, pathname: string, params: Value, data: Value, handle: Value)

  /** `useMatches()`: every router match, in order, with its id, pathname, params, loader data and handle. */
  function UseMatches(ms: seq<Match>, loaderData: Entries): (r: seq<MatchSummary>)
    ensures |r| == |ms|
    ensures forall i :: 0 <= i < |ms| ==>
              r[i].id == ms[i].route.id && r[i].pathname == ms[i].pathname && r[i].params == ms[i].params
              && r[i].data == Get(loaderData, ms[i].route.id) && r[i].handle == ms[i].route.handle
  {
    seq(|ms|, i requires 0 <= i < |ms| =>
      var m := ms[i];
      MatchSummary(m.route.id, m.pathname, m.params, Get(loaderData, m.route.id), m.route.handle))
  }

  function Summarize(p: ProjectedMatch): MatchSummary {
    MatchSummary(p.id, p.pathname, p.params, p.data, p.handle)
  }

  /** The Preact hook and the Lit getters agree on every field they share. */
  lemma UseMatchesAgreesWithProjection(ms: seq<Match>, loaderData: Entries)
    ensures |UseMatches(ms, loaderData)| == |ProjectMatches(ms, loaderData)|
    ensures forall i :: 0 <= i < |ms| ==>
              UseMatches(ms, loaderData)[i] == Summarize(ProjectMatches(ms, loaderData)[i])
  {
  }

  /** The projection forgets nothing of the matches: dropping the decoration gives them back. */
  lemma ProjectMatchesRoundTrip(ms: seq<Match>, loaderData: Entries)
    ensures forall i :: 0 <= i < |ms| ==> Unproject(ProjectMatches(ms, loaderData)[i]) == ms[i]
  {
  }
}

=== FILE: outlet.dfy ===
/**
 * The outlet: the spot in a route's view where the next deeper match renders.
 * Four copies exist (the Preact adapter's `OutletImpl`, and `outletImpl` in
 * remix-router-lit.ts, outlet-impl.ts and new-router.ts). Each finds the
 * match of the enclosing route, renders the one after it inside a route
 * wrapper, and, except in new-router.ts, wraps it in an error boundary when
 * it sits at the root, has an error to show, or has its own error view.
 */
module Outlet {
  import opened Js
  import opened Matches
  import opened RouteContexts

  /** Which copy of the outlet; they differ in messages, defaults and boundaries. */
  datatype Adapter = PreactSignals | RemixRouterLit | LitOutletImpl | LitNewRouter

  /** The outlet's own name in its "not found" message. */
  function OutletTag(a: Adapter): string {
    if a.PreactSignals? then "<Outlet />"
    else if a.RemixRouterLit? then "<remix-outlet>"
    else "<router-outlet>"
  }

  /**
   * The Preact adapter's built-in `DefaultErrorComponent`. Its kind sets it
   * apart from every error view an application supplies.
   */
  const DefaultErrorComponent: Value := Obj(0, BuiltinComponent)

  /** What a boundary renders for a route without an error view of its own. */
  function DefaultErrorView(a: Adapter): Value {
    match a
    case PreactSignals => DefaultErrorComponent
    case RemixRouterLit => Str("remix-default-error")
    case LitOutletImpl => Str("Default Error")
    case LitNewRouter => Undefined
  }

  /**
   * Where the outlet sits: under the router provider, inside the wrapper of
   * route `routeId`, or (by mistake) outside every route wrapper, where no
   * route context reaches it.
   */
  datatype Position = Root | Nested(routeId: string) | Unscoped

  /** `routeContext?.id`: there is no route context at the root or outside every wrapper. */
  function ContextId(pos: Position): Option<string> {
    match pos
    case Root => None
    case Nested(id) => Some(id)
    case Unscoped => None
  }

  /**
   * The copies that read the route context through an invariant: outside
   * every wrapper they fail there, before any match is looked up. The other
   * Lit copies receive an optional context and look up an undefined id.
   */
  predicate GuardsRouteContext(a: Adapter) {
    a.PreactSignals? || a.RemixRouterLit?
  }

  /** `ms[k]` is the first match of route `id`. */
  predicate FirstMatchOf(ms: seq<Match>, id: string, k: nat)
    requires k < |ms|
  {
    ms[k].route.id == id && forall i :: 0 <= i < k ==> ms[i].route.id != id
  }

  /** An error boundary: the error it starts with and the view it shows for errors. */
  datatype Boundary = Boundary(error: Value, errorView: Value)

  /** What an outlet renders: a route wrapper for one route, maybe with a boundary, around its view. */
  datatype RouteView = RouteView(id: string, index: bool, boundary: Option<Boundary>, view: Value)

  /**
   * `errors?.[id] != null ? Object.values(errors)[0] : null`: a route at which
   * the router recorded an error gets the first recorded error, whatever
   * route that one belongs to.
   */
  function SelectError(errors: Entries, id: string): (e: Value)
    ensures !IsNullish(Get(errors, id)) ==> |errors| > 0 && e == errors[0].1
    ensures IsNullish(Get(errors, id)) ==> e == Null
  {
    if IsNullish(Get(errors, id)) then Null else errors[0].1
  }

  /** With a single recorded error, the route it belongs to is handed exactly that error. */
  lemma SelectOwnError(errors: Entries, id: string)
    requires |errors| == 1 && errors[0].0 == id && !IsNullish(errors[0].1)
    ensures SelectError(errors, id) == Get(errors, id) == errors[0].1
  {
  }

  /** A route the router recorded no error for is handed null, even when other routes have errors. */
  lemma SelectNoError(errors: Entries, id: string)
    requires forall i :: 0 <= i < |errors| ==> errors[i].0 != id
    ensures SelectError(errors, id) == Null
  {
  }

  /** `renderRouteWrapper` and its Lit counterparts for the match chosen to render. */
  function RenderRoute(a: Adapter, root: bool, m: Match, error: Value): (v: RouteView)
    ensures v.id == m.route.id && v.view == m.route.view
    ensures v.index <==> m.route.index == Bool(true)
    ensures v.boundary.Some? <==> a != LitNewRouter && (root || Truthy(error) || Truthy(m.route.errorView))
    ensures v.boundary.Some? ==> v.boundary.value.error == error
    ensures v.boundary.Some? && Truthy(m.route.errorView) ==> v.boundary.value.errorView == m.route.errorView
    ensures v.boundary.Some? && !Truthy(m.route.errorView) ==> v.boundary.value.errorView == DefaultErrorView(a)
  {
    var wrap := a != LitNewRouter && (root || Truthy(error) || Truthy(m.route.errorView));
    var boundary := if wrap then Some(Boundary(error, Or(m.route.errorView, DefaultErrorView(a)))) else None;
    RouteView(m.route.id, m.route.index == Bool(true), boundary, m.route.view)
  }

  /** "Unable to find <outlet> match for route id: <id or _root_>". */
  function NotFoundMessage(a: Adapter, pos: Position): string {
    var shown := if pos.Nested? && pos.routeId != "" then pos.routeId else "_root_";
    "Unable to find " + OutletTag(a) + " match for route id: " + shown
  }

  /**
   * The outlet: throws when it is not at the root and its route is not among
   * the matches (or it has no route: the Preact adapter and remix-router-lit.ts
   * then fail reading the route context, outlet-impl.ts and new-router.ts
   * look up an undefined id); otherwise
   * renders `matches[idx + 1]`, where `idx` is the position of its route (-1
   * at the root), or nothing when there is no such match.
   */
  function OutletImpl(a: Adapter, pos: Position, ms: seq<Match>, errors: Entries): (r: Completion<Option<RouteView>>)
    ensures r.Throws? <==> pos.Unscoped? || (pos.Nested? && !HasRoute(ms, pos.routeId))
    ensures r.Throws? && pos.Unscoped? && GuardsRouteContext(a) ==> r.message == NoRouteContextMessage
    ensures r.Throws? && !(pos.Unscoped? && GuardsRouteContext(a)) ==> r.message == NotFoundMessage(a, pos)
    ensures pos.Unscoped? && !GuardsRouteContext(a) ==>
              r.Throws? && r.message == "Unable to find " + OutletTag(a) + " match for route id: _root_"
    ensures pos.Root? ==> (r == Returns(None) <==> |ms| == 0)
    ensures pos.Root? && |ms| > 0 ==>
              r == Returns(Some(RenderRoute(a, true, ms[0], SelectError(errors, ms[0].route.id))))
    ensures pos.Nested? && HasRoute(ms, pos.routeId) ==>
              (r == Returns(None) <==> forall j :: 0 <= j < |ms| - 1 ==> ms[j].route.id != pos.routeId)
    ensures pos.Nested? && r.Returns? && r.value.Some? ==>
              exists j :: 0 < j < |ms| && FirstMatchOf(ms, pos.routeId, j - 1)
                          && r.value.value == RenderRoute(a, false, ms[j], SelectError(errors, ms[j].route.id))
  {
    var idx := FindIndex(ms, ContextId(pos));
    if pos.Unscoped? && GuardsRouteContext(a) then
      Throws(NoRouteContextMessage)
    else if idx < 0 && !pos.Root? then
      Throws(NotFoundMessage(a, pos))
    else if idx + 1 >= |ms| then
      Returns(None)
    else
      var next := ms[idx + 1];
      Returns(Some(RenderRoute(a, pos.Root?, next, SelectError(errors, next.route.id))))
  }

  /**
   * With distinct route ids the outlets walk the match list one step at a
   * time: the outlet inside the wrapper of `ms[k]` renders `ms[k + 1]`, or
   * nothing below the last match.
   */
  lemma OutletRendersNextMatch(a: Adapter, ms: seq<Match>, errors: Entries, k: nat)
    requires DistinctRouteIds(ms)
    requires k < |ms|
    ensures k + 1 < |ms| ==>
              OutletImpl(a, Nested(ms[k].route.id), ms, errors)
              == Returns(Some(RenderRoute(a, false, ms[k + 1], SelectError(errors, ms[k + 1].route.id))))
    ensures k + 1 == |ms| ==> OutletImpl(a, Nested(ms[k].route.id), ms, errors) == Returns(None)
  {
    FindIndexDistinct(ms, k);
  }
}

=== FILE: paths.dfy ===
/**
 * Paths as the adapters build them: `createPath`, which joins a pathname, a
 * search and a hash into one href, and the `?index` rewrite a form action
 * gets when it posts to its own index route.
 */
module Paths {
  import opened Js

  /** A `Partial<Path>`: any of the three parts may be left undefined. */
  datatype PartialPath = PartialPath(pathname: Option<string>, search: Option<string>, hash: Option<string>)

  /** A full path, as the router's `resolveTo` returns it. */
  datatype Path = Path(pathname: string, search: string, hash: string)

  /** A navigation target: an href string or a partial path object. */
  datatype To = Href(href: string) | PathObject(path: PartialPath)

  function ToPartial(p: Path): PartialPath {
    PartialPath(Some(p.pathname), Some(p.search), Some(p.hash))
  }

  /** `s` without its first character when that character is `c`. */
  function DropLeading(s: string, c: char): (r: string)
    ensures |s| > 0 && s[0] == c ==> r == s[1..]
    ensures (|s| == 0 || s[0] != c) ==> r == s
  {
    if |s| > 0 && s[0] == c then s[1..] else s
  }

  /**
   * What a search (with `c` = '?') or a hash (with `c` = '#') contributes to
   * `createPath`: nothing when it is empty or the bare marker, otherwise the
   * text behind exactly one marker supplied where it was missing.
   */
  function Component(s: string, c: char): (r: string)
    ensures s == "" || s == [c] ==> r == ""
    ensures s != "" && s != [c] ==> |r| > 1 && r[0] == c && r[1..] == DropLeading(s, c)
  {
    if s == "" || s == [c] then ""
    else if s[0] == c then s
    else [c] + s
  }

  /** `createPath({ pathname = "/", search = "", hash = "" })`. */
  function CreatePath(p: PartialPath): (r: string)
    ensures var pathname := p.pathname.GetOr("/");
            |pathname| <= |r| && r[..|pathname|] == pathname
    ensures p.pathname.None? ==> |r| > 0 && r[0] == '/'
    ensures (p.search.GetOr("") == "" || p.search.GetOr("") == "?")
            && (p.hash.GetOr("") == "" || p.hash.GetOr("") == "#")
            ==> r == p.pathname.GetOr("/")
  {
    p.pathname.GetOr("/") + Component(p.search.GetOr(""), '?') + Component(p.hash.GetOr(""), '#')
  }

  /** The position of the first `c` in `s`, or `|s|` when there is none. */
  function IndexOf(s: string, c: char): (i: nat)
    ensures i <= |s|
    ensures i < |s| ==> s[i] == c
    ensures forall j :: 0 <= j < i ==> s[j] != c
  {
    if |s| == 0 then 0
    else if s[0] == c then 0
    else 1 + IndexOf(s[1..], c)
  }

  /**
   * The reading of an href back into its parts, used as the partner of
   * `CreatePath`: the hash starts at the first '#', the search at the first
   * '?' before it.
   */
  function SplitPath(s: string): (p: Path)
    ensures p.pathname + p.search + p.hash == s
    ensures '?' !in p.pathname && '#' !in p.pathname && '#' !in p.search
    ensures p.search == "" || p.search[0] == '?'
    ensures p.hash == "" || p.hash[0] == '#'
  {
    var h := IndexOf(s, '#');
    var before := s[..h];
    var q := IndexOf(before, '?');
    assert s == before[..q] + before[q..] + s[h..];
    Path(before[..q], before[q..], s[h..])
  }

  lemma IndexOfAppend(a: string, b: string, c: char)
    requires c !in a
    requires |b| > 0 && b[0] == c
    ensures IndexOf(a + b, c) == |a|
  {
    assert forall j :: 0 <= j < |a| ==> (a + b)[j] == a[j] && a[j] in a;
    assert (a + b)[|a|] == c;
  }

  lemma IndexOfAbsent(a: string, c: char)
    requires c !in a
    ensures IndexOf(a, c) == |a|
  {
    assert forall j :: 0 <= j < |a| ==> a[j] in a;
  }

  /** A character other than the marker that the input avoids, the component avoids too. */
  lemma ComponentAvoids(s: string, c: char, d: char)
    requires d != c && d !in s
    ensures d !in Component(s, c)
  {
    var r := Component(s, c);
    if r != "" && r != s {
      assert r == [c] + s;
      assert forall k :: 1 <= k < |r| ==> r[k] == s[k - 1] && s[k - 1] in s;
    }
  }

  /**
   * Splitting what `createPath` built gives back the pathname and the
   * normalised search and hash, as long as the pathname carries no '?' or
   * '#' and the search no '#'.
   */
  lemma SplitCreatePath(p: PartialPath)
    requires '?' !in p.pathname.GetOr("/") && '#' !in p.pathname.GetOr("/")
    requires '#' !in p.search.GetOr("")
    ensures SplitPath(CreatePath(p))
            == Path(p.pathname.GetOr("/"), Component(p.search.GetOr(""), '?'), Component(p.hash.GetOr(""), '#'))
  {
    var pathname := p.pathname.GetOr("/");
    var search := Component(p.search.GetOr(""), '?');
    var hash := Component(p.hash.GetOr(""), '#');
    var s := CreatePath(p);
    assert s == (pathname + search) + hash;
    ComponentAvoids(p.search.GetOr(""), '?', '#');
    assert '#' !in pathname + search by {
      forall k | 0 <= k < |pathname + search|
        ensures (pathname + search)[k] != '#'
      {
        if k < |pathname| {
          assert (pathname + search)[k] == pathname[k] && pathname[k] in pathname;
        } else {
          assert (pathname + search)[k] == search[k - |pathname|] && search[k - |pathname|] in search;
        }
      }
    }
    if hash == "" {
      IndexOfAbsent(pathname + search, '#');
      assert s == pathname + search;
    } else {
      IndexOfAppend(pathname + search, hash, '#');
    }
    var before := s[..IndexOf(s, '#')];
    assert before == pathname + search;
    if search == "" {
      IndexOfAbsent(pathname, '?');
      assert before == pathname;
    } else {
      IndexOfAppend(pathname, search, '?');
    }
  }

  /** Building, splitting and building again changes nothing: `createPath` output is already normal. */
  lemma CreatePathNormal(p: PartialPath)
    requires '?' !in p.pathname.GetOr("/") && '#' !in p.pathname.GetOr("/")
    requires '#' !in p.search.GetOr("")
    ensures CreatePath(ToPartial(SplitPath(CreatePath(p)))) == CreatePath(p)
  {
    SplitCreatePath(p);
  }

  /**
   * `search ? search.replace(/^\?/, "?index&") : "?index"`: the search a form
   * on an index route posts to.
   */
  function IndexSearch(search: string): (r: string)
    ensures search == "" ==> r == "?index"
    ensures |search| > 0 && search[0] == '?' ==> r == "?index&" + search[1..]
    ensures |search| > 0 && search[0] != '?' ==> r == search
  {
    if search == "" then "?index"
    else if search[0] == '?' then "?index&" + search[1..]
    else search
  }

  /** Removes the `index` parameter `IndexSearch` put in front of a search. */
  function StripIndexParam(s: string): string {
    if s == "?index" then ""
    else if |s| >= 7 && s[..7] == "?index&" then "?" + s[7..]
    else s
  }

  /** The `?index` rewrite loses nothing: the original search can always be recovered. */
  lemma StripIndexSearch(search: string)
    ensures StripIndexParam(IndexSearch(search)) == search
  {
    if |search| > 0 && search[0] == '?' {
      var r := IndexSearch(search);
      assert r[..7] == "?index&";
      assert r[7..] == search[1..];
      assert search == "?" + search[1..];
    }
  }

  /**
   * The href a form action yields, given the path the router resolved the
   * action to: its pathname and search, with the search rewritten to target
   * the index route when the action is "." and the current route is an index
   * route. The resolved hash never reaches the result.
   */
  function FormActionHref(action: string, isIndexRoute: bool, resolved: Path): (href: string)
    ensures !(action == "." && isIndexRoute) ==> href == resolved.pathname + resolved.search
    ensures |resolved.pathname| <= |href| && href[..|resolved.pathname|] == resolved.pathname
    ensures action == "." && isIndexRoute ==> href == resolved.pathname + IndexSearch(resolved.search)
    ensures action == "." && isIndexRoute ==>
              StripIndexParam(href[|resolved.pathname|..]) == resolved.search
    ensures action == "." && isIndexRoute && (resolved.search == "" || resolved.search[0] == '?') ==>
              |href| >= |resolved.pathname| + 6 && href[|resolved.pathname|..|resolved.pathname| + 6] == "?index"
  {
    var search := if action == "." && isIndexRoute then IndexSearch(resolved.search) else resolved.search;
    StripIndexSearch(resolved.search);
    assert (resolved.pathname + search)[|resolved.pathname|..] == search;
    resolved.pathname + search
  }
}

=== FILE: route_contexts.dfy ===
/**
 * The route context a route wrapper publishes to everything rendered inside
 * it: its route id, the matches from the root down to it, and whether it is
 * an index route. Relative links and form actions resolve against those
 * matches.
 */
module RouteContexts {
  import opened Js
  import opened Matches

  datatype RouteContext = RouteContext(id: string, matches: seq<Match>, index: bool)

  /**
   * What reading a missing route context throws, wherever a copy reads it
   * through an invariant (the Preact adapter's `useRouteContext`, the
   * controllers' `routeContext` getters): tiny-invariant's prefix and the
   * message it is given.
   */
  const NoRouteContextMessage: string := "Invariant failed: No RouteContext available"

  /**
   * The matches from the root down to and including the first match of route
   * `id`: `ms.slice(0, ms.findIndex((m) => m.route.id === id) + 1)`. When no
   * match has the id, findIndex gives -1 and the slice is empty.
   */
  function MatchesThrough(ms: seq<Match>, id: string): (r: seq<Match>)
    ensures |r| <= |ms| && r == ms[..|r|]
    ensures |r| > 0 <==> HasRoute(ms, id)
    ensures |r| > 0 ==> r[|r| - 1].route.id == id
    ensures forall j :: 0 <= j < |r| - 1 ==> ms[j].route.id != id
  {
    SliceTo(ms, FindIndex(ms, Some(id)) + 1)
  }

  /**
   * The context of a route wrapper in the Preact adapter and in
   * elements/route-wrapper.ts: the wrapper's id, the matches through its own
   * route, and an index flag that is set only by the value `true` itself.
   */
  function WrapperContext(id: string, index: Value, ms: seq<Match>): (ctx: RouteContext)
    ensures ctx.id == id
    ensures ctx.index <==> index == Bool(true)
    ensures ctx.matches == MatchesThrough(ms, id)
  {
    RouteContext(id, MatchesThrough(ms, id), index == Bool(true))
  }

  /**
   * The route wrapper of new-router.ts publishes on every router-context
   * update, and only when that context carries a state.
   */
  function NewRouterWrapperContext(id: string, index: Value, state: Option<seq<Match>>): (ctx: Option<RouteContext>)
    ensures ctx.Some? <==> state.Some?
    ensures ctx.Some? ==> ctx.value.id == id && (ctx.value.index <==> index == Bool(true))
    ensures ctx.Some? ==> ctx.value.matches == MatchesThrough(state.value, id)
  {
    match state
    case None => None
    case Some(ms) => Some(WrapperContext(id, index, ms))
  }

  /**
   * The route wrapper of remix-router-lit.ts as written:
   * `ms.slice(0, ms.findIndex((m) => m.route.id === id))` without the `+ 1`.
   * It stops strictly before the route's own match, and when no match has the
   * id the slice end is -1, which keeps all but the last match.
   */
  function LitWrapperContext(id: string, index: Value, ms: seq<Match>): (ctx: RouteContext)
    ensures ctx.id == id
    ensures ctx.index <==> index == Bool(true)
    ensures HasRoute(ms, id) ==>
              |ctx.matches| < |ms| && ctx.matches == ms[..|ctx.matches|]
              && ms[|ctx.matches|].route.id == id
              && forall j :: 0 <= j < |ctx.matches| ==> ms[j].route.id != id
    ensures !HasRoute(ms, id) ==> ctx.matches == if |ms| == 0 then [] else ms[..|ms| - 1]
  {
    RouteContext(id, SliceTo(ms, FindIndex(ms, Some(id))), index == Bool(true))
  }

  /**
   * Where the route is matched, the remix-router-lit.ts context is the
   * others' context minus the route's own match.
   */
  lemma LitWrapperOmitsOwnMatch(id: string, index: Value, ms: seq<Match>)
    requires HasRoute(ms, id)
    ensures var lit := LitWrapperContext(id, index, ms).matches;
            var through := WrapperContext(id, index, ms).matches;
            |through| == |lit| + 1 && through == lit + [through[|lit|]]
  {
    var lit := LitWrapperContext(id, index, ms).matches;
    var through := WrapperContext(id, index, ms).matches;
    assert through == ms[..|lit| + 1];
  }

  /**
   * A two-level match list, root route "0" above child route "0-0": the
   * child's wrapper in remix-router-lit.ts sees only the root match, and a
   * wrapper whose id is not matched sees the root match too, where the
   * other adapters' wrapper gives both matches and nothing respectively.
   */
  lemma LitWrapperCounterexample(root: Match, child: Match)
    requires root.route.id == "0" && child.route.id == "0-0"
    ensures LitWrapperContext("0-0", Bool(false), [root, child]).matches == [root]
    ensures WrapperContext("0-0", Bool(false), [root, child]).matches == [root, child]
    ensures LitWrapperContext("1", Bool(false), [root, child]).matches == [root]
    ensures WrapperContext("1", Bool(false), [root, child]).matches == []
  {
    var ms := [root, child];
    assert ms[1].route.id == "0-0";
    assert !HasRoute(ms, "1");
  }
}

=== FILE: route_objects.dfy ===
/**
 * The route tree an application hands to `createBrowserRouter` and its
 * siblings, and `enhanceManualRouteObjects`, which walks it once before the
 * router sees it and fills in every missing `hasErrorBoundary`.
 *
 * The three adapters carry the same walk; they differ only in the property
 * that says a route renders its own errors (`ErrorBoundary` in the Preact
 * adapter, `errorElement` in remix-router-lit.ts, `errorTemplate` in
 * new-router.ts). Here that property is `errorView`.
 */
module RouteObjects {
  import opened Js

  /**
   * One route object. `rest` stands for every property the walk copies
   * without looking at it (path, loader, action, element, ...).
   */
  datatype RouteObject = RouteObject(
    hasErrorBoundary: Value,
    errorView: Value,
    rest: Value,
    children: ChildList)

  /** The `children` property: absent, or an array of routes (truthy even when empty). */
  datatype ChildList = Absent | Present(routes: seq<RouteObject>)

  /** The flag a route ends up with: an explicit one stays, an absent one says whether an error view exists. */
  function ErrorBoundaryFlag(route: RouteObject): (flag: Value)
    ensures !IsNullish(route.hasErrorBoundary) ==> flag == route.hasErrorBoundary
    ensures IsNullish(route.hasErrorBoundary) ==> flag == Bool(!IsNullish(route.errorView))
    ensures !IsNullish(flag)
  {
    if IsNullish(route.hasErrorBoundary) then Bool(!IsNullish(route.errorView))
    else route.hasErrorBoundary
  }

  /** `enhanceManualRouteObjects(routes)`: a copy of the list with each route enhanced. */
  function EnhanceManualRouteObjects(routes: seq<RouteObject>): (out: seq<RouteObject>)
    ensures |out| == |routes|
    ensures forall i :: 0 <= i < |routes| ==> out[i] == EnhanceRoute(routes[i])
    decreases routes
  {
    if routes == [] then []
    else [EnhanceRoute(routes[0])] + EnhanceManualRouteObjects(routes[1..])
  }

  /** The callback of the `map`: clone, default the flag, recurse into children. */
  function EnhanceRoute(route: RouteObject): (out: RouteObject)
    ensures out.errorView == route.errorView && out.rest == route.rest
    ensures out.hasErrorBoundary == ErrorBoundaryFlag(route)
    ensures out.children.Present? <==> route.children.Present?
    ensures route.children.Present? ==> |out.children.routes| == |route.children.routes|
    ensures route.children.Present? ==> out.children.routes == EnhanceManualRouteObjects(route.children.routes)
    decreases route
  {
    var kids := match route.children
                case Absent => Absent
                case Present(cs) => Present(EnhanceManualRouteObjects(cs));
    RouteObject(ErrorBoundaryFlag(route), route.errorView, route.rest, kids)
  }

  /** Every route in the tree carries a defined, non-null `hasErrorBoundary`. */
  predicate AllFlagged(routes: seq<RouteObject>)
    decreases routes
  {
    forall i :: 0 <= i < |routes| ==> RouteFlagged(routes[i])
  }

  predicate RouteFlagged(route: RouteObject)
    decreases route
  {
    !IsNullish(route.hasErrorBoundary)
    && (route.children.Present? ==> AllFlagged(route.children.routes))
  }

  /** The tree with every flag erased: what the walk must leave alone. */
  function EraseAll(routes: seq<RouteObject>): (out: seq<RouteObject>)
    ensures |out| == |routes|
    decreases routes
  {
    if routes == [] then []
    else [Erase(routes[0])] + EraseAll(routes[1..])
  }

  function Erase(route: RouteObject): RouteObject
    decreases route
  {
    var kids := match route.children
                case Absent => Absent
                case Present(cs) => Present(EraseAll(cs));
    RouteObject(Undefined, route.errorView, route.rest, kids)
  }

  /** After the walk every route in the whole tree has its flag. */
  lemma {:induction false} EnhanceFlagsAll(routes: seq<RouteObject>)
    ensures AllFlagged(EnhanceManualRouteObjects(routes))
    decreases routes
  {
    forall i | 0 <= i < |routes|
      ensures RouteFlagged(EnhanceManualRouteObjects(routes)[i])
    {
      EnhanceFlagsRoute(routes[i]);
    }
  }

  lemma {:induction false} EnhanceFlagsRoute(route: RouteObject)
    ensures RouteFlagged(EnhanceRoute(route))
    decreases route
  {
    match route.children
    case Absent =>
    case Present(cs) => EnhanceFlagsAll(cs);
  }

  /** The walk changes nothing but flags: tree shape, order and every other field survive. */
  lemma {:induction false} EnhancePreservesShape(routes: seq<RouteObject>)
    ensures EraseAll(EnhanceManualRouteObjects(routes)) == EraseAll(routes)
    decreases routes
  {
    if routes != [] {
      EnhancePreservesRouteShape(routes[0]);
      EnhancePreservesShape(routes[1..]);
      var out := EnhanceManualRouteObjects(routes);
      assert out[1..] == EnhanceManualRouteObjects(routes[1..]);
    }
  }

  lemma {:induction false} EnhancePreservesRouteShape(route: RouteObject)
    ensures Erase(EnhanceRoute(route)) == Erase(route)
    decreases route
  {
    match route.children
    case Absent =>
    case Present(cs) => EnhancePreservesShape(cs);
  }

  /** The walk leaves a tree alone exactly when every route in it already has its flag. */
  lemma EnhanceFixpoint(routes: seq<RouteObject>)
    ensures EnhanceManualRouteObjects(routes) == routes <==> AllFlagged(routes)
  {
    if AllFlagged(routes) {
      EnhanceFlaggedUnchanged(routes);
    } else {
      EnhanceFlagsAll(routes);
    }
  }

  lemma {:induction false} EnhanceFlaggedUnchanged(routes: seq<RouteObject>)
    requires AllFlagged(routes)
    ensures EnhanceManualRouteObjects(routes) == routes
    decreases routes
  {
    forall i | 0 <= i < |routes|
      ensures EnhanceManualRouteObjects(routes)[i] == routes[i]
    {
      EnhanceFlaggedRouteUnchanged(routes[i]);
    }
  }

  lemma {:induction false} EnhanceFlaggedRouteUnchanged(route: RouteObject)
    requires RouteFlagged(route)
    ensures EnhanceRoute(route) == route
    decreases route
  {
    match route.children
    case Absent =>
    case Present(cs) => EnhanceFlaggedUnchanged(cs);
  }

  /**
   * `outs` is `srcs` enhanced, node by node at every depth: each output route
   * keeps its own input route's error view, other properties and children
   * (in order), and carries the flag `ErrorBoundaryFlag` gives that input
   * route.
   */
  predicate EnhancedFrom(outs: seq<RouteObject>, srcs: seq<RouteObject>)
    decreases srcs
  {
    |outs| == |srcs| && forall i :: 0 <= i < |srcs| ==> RouteEnhancedFrom(outs[i], srcs[i])
  }

  predicate RouteEnhancedFrom(out: RouteObject, src: RouteObject)
    decreases src
  {
    && out.hasErrorBoundary == ErrorBoundaryFlag(src)
    && out.errorView == src.errorView
    && out.rest == src.rest
    && match src.children
       case Absent => out.children.Absent?
       case Present(cs) => out.children.Present? && EnhancedFrom(out.children.routes, cs)
  }

  /** The walk meets the node-by-node description at every depth. */
  lemma {:induction false} EnhanceRelates(routes: seq<RouteObject>)
    ensures EnhancedFrom(EnhanceManualRouteObjects(routes), routes)
    decreases routes
  {
    forall i | 0 <= i < |routes|
      ensures RouteEnhancedFrom(EnhanceManualRouteObjects(routes)[i], routes[i])
    {
      EnhanceRouteRelates(routes[i]);
    }
  }

  lemma {:induction false} EnhanceRouteRelates(route: RouteObject)
    ensures RouteEnhancedFrom(EnhanceRoute(route), route)
    decreases route
  {
    match route.children
    case Absent =>
    case Present(cs) => EnhanceRelates(cs);
  }

  /** The node-by-node description leaves no freedom: only the walk's output meets it. */
  lemma {:induction false} EnhancedFromUnique(outs: seq<RouteObject>, srcs: seq<RouteObject>)
    requires EnhancedFrom(outs, srcs)
    ensures outs == EnhanceManualRouteObjects(srcs)
    decreases srcs
  {
    forall i | 0 <= i < |srcs|
      ensures outs[i] == EnhanceManualRouteObjects(srcs)[i]
    {
      RouteEnhancedFromUnique(outs[i], srcs[i]);
    }
  }

  lemma {:induction false} RouteEnhancedFromUnique(out: RouteObject, src: RouteObject)
    requires RouteEnhancedFrom(out, src)
    ensures out == EnhanceRoute(src)
    decreases src
  {
    match src.children
    case Absent =>
    case Present(cs) => EnhancedFromUnique(out.children.routes, cs);
  }

  /** A list is the walk's output exactly when it meets the node-by-node description. */
  lemma EnhanceCharacterised(outs: seq<RouteObject>, srcs: seq<RouteObject>)
    ensures outs == EnhanceManualRouteObjects(srcs) <==> EnhancedFrom(outs, srcs)
  {
    EnhanceRelates(srcs);
    if EnhancedFrom(outs, srcs) {
      EnhancedFromUnique(outs, srcs);
    }
  }

  /** Enhancing twice is the same as enhancing once. */
  lemma EnhanceIdempotent(routes: seq<RouteObject>)
    ensures EnhanceManualRouteObjects(EnhanceManualRouteObjects(routes)) == EnhanceManualRouteObjects(routes)
  {
    EnhanceFlagsAll(routes);
    EnhanceFlaggedUnchanged(EnhanceManualRouteObjects(routes));
  }
}
